=== FILE: README.md ===
# Selection arbitration and client surfaces, modelled in Dafny

This project models two parts of a Wayland compositor library (KWayland).

1. **Seat selection arbitration, as seen by data-control devices.** A seat
   has two selection slots: the regular selection and the primary selection.
   Each slot holds at most one current data source. A source carries an
   ordered list of MIME types. Every change of a slot is announced to every
   attached data-control device. The announcement is either an offer that
   copies the source's MIME list or a "selection cleared" event. Control
   devices own no surface and need no focus. A control device can install
   its own source as the regular selection. A source that advertises
   `application/x-kde-onlyReplaceEmpty` is a clipboard manager re-asserting
   cached content. When a control device asks to install it, it only takes
   the slot while the slot is empty. When a
   source is destroyed, every slot that holds it is cleared.
2. **The client `Surface` object and the process-wide surface list.**
   Construction appends to the list and destruction removes every occurrence.
   `get` finds the first surface holding a given native proxy. `release` and
   `destroy` are idempotent, and `setup` adopts a proxy. The model also
   covers the frame-callback flag, `commit`, `damage` and `attachBuffer`
   forwarding, and `setSize`, which signals only when the size changes.

Files:

- `wrappers.dfy`: `Option` (a nullable pointer) and `Result` (success or an error kind).
- `surface.dfy` (module `ClientSurface`): one surface as an immutable record.
  Each operation returns the new record and the list of libwayland calls and
  signals it performs, in order.
- `surface_registry.dfy` (module `SurfaceRegistry`): the list of surface
  identities in construction order plus a heap of their states. It also holds
  the reference definition of `get`.
- `data_control.dfy` (module `DataControl`): the seat state machine. Its
  invariant `Valid` says four things. No slot refers to a destroyed source.
  Every offer of a live source equals that source's MIME list, in order.
  Each device's latest event about a slot describes what the slot holds now.
  Every live or offered id is below its allocation counter. Every operation
  preserves `Valid`, and so does every sequence of requests (`RunKeepsValid`).
  New ids come from the counters, which only grow, so an id that was handed
  out and retired is never handed out again (`RunKeepsRetired`).
- `data_control_tests.dfy` (module `DataControlTests`): what the five
  data-control test cases check. Each is stated once for every valid seat
  and once for the exact request sequence of the test.

The server's seat and data-control device implementation is not part of
this model. Its behaviour is taken from what `autotests/client/test_datacontrol.cpp`
checks and from the behaviour described above. "At most one owner per slot"
holds by construction, because a slot is an `Option<SourceId>`.

Where the model had to choose:

- The request `setSelection(0, source)` on a control device targets the
  regular slot. The test `testCopyFromControlPrimarySelection` waits on the
  primary-selection signal but asserts on the regular selection, and the
  model follows that assertion. The leading `0` is not modelled.
- A marker-tagged source that a control device offers while the regular
  slot is occupied is refused with `SlotOccupied`, and the seat is left
  unchanged. The seat's own install (`SetSlot`, the compositor setting a
  selection directly, as the tests do with their server-side source) does
  not look at the marker and installs any live source.
- Installing the source that a slot already holds changes nothing. Otherwise
  the previous source is recorded as cancelled before the new one takes the
  slot.
- A source's MIME list is frozen once the source has been installed. After
  that, `offer(mimeType)` fails with `SourceInUse`. This is what keeps every
  issued offer equal to its source's list.
- A new control device starts with an empty event log.
- An offer is current while it is its device's latest event about its slot
  and its source lives. A data request on any other offer fails with
  `StaleOffer`. A request is therefore served exactly when no later offer
  or clear for the same slot has reached that device (`CurrentOfferIsServed`).
  A device holds at most one current offer per slot. One source installed
  in both slots has one current offer in each.
- `testCopyToControlPrimarySelection` installs the source as the primary
  selection but spies on the `selectionOffered` signal
  (`autotests/client/test_datacontrol.cpp:315`). The spy on the primary
  signal is commented out on the next line. The model announces a primary
  change as an offer whose slot kind is `Primary`, which follows the install
  call rather than the spied signal.
- The debug-only `Q_ASSERT` checks in `src/client/surface.cpp` (lines 66-67,
  93-94, 102, 118 and 124) become `requires` clauses. A release build skips
  them, with a different outcome for each. It is not modelled in any case.
  - Line 66: `setup(nullptr)` stores the null pointer and calls nothing.
    In the model, `Native` cannot be null.
  - Line 67: `setup` on a surface that already holds a proxy overwrites it,
    and the old proxy leaks.
  - Line 94: a second `wl_surface_frame` is requested on a valid proxy
    while a callback is still outstanding. `Commit` with `FrameCallback`
    excludes this input for the same reason.
  - Lines 93, 102, 118 and 124: the libwayland call gets a null proxy.

## Model

| member | source | states |
|---|---|---|
| ClientSurface.Create | src/client/surface.cpp:32-36 | a new surface holds no proxy, has no frame callback outstanding, and has an invalid (negative) size |
| ClientSurface.Release | src/client/surface.cpp:46-53 | with no proxy nothing happens; otherwise exactly that proxy is passed to `wl_surface_destroy` and the surface ends without one; the flag and the size are untouched |
| ClientSurface.Destroy | src/client/surface.cpp:55-62 | like `release`, but the proxy is freed instead of destroyed |
| ClientSurface.Setup | src/client/surface.cpp:64-69 | only for a surface without a proxy; afterwards it holds exactly the given proxy and nothing else changes |
| ClientSurface.SetupFrameCallback | src/client/surface.cpp:91-98 | needs a valid surface with no callback outstanding; requests one frame on its proxy, then registers the listener on the returned callback, and sets the flag |
| ClientSurface.HandleFrameCallback | src/client/surface.cpp:81-85 | clears the flag and emits `frameRendered` exactly once |
| ClientSurface.OnFrameDone | src/client/surface.cpp:71-79 | destroys the callback object only when there is one, then clears the flag and emits `frameRendered`; its partner is `CommitFrameCallbackCycle` |
| ClientSurface.Commit | src/client/surface.cpp:100-107 | needs a valid surface; with `FrameCallback` the frame request and the listener registration precede the commit and the flag ends set; any other flag only commits and leaves the state unchanged |
| ClientSurface.DamageRect | src/client/surface.cpp:116-120 | needs a valid surface; forwards the rectangle to its proxy without changing state |
| ClientSurface.DamageRegion | src/client/surface.cpp:109-114 | forwards every rectangle in order, one call each; validity is needed only when the region is non-empty |
| ClientSurface.AttachBuffer | src/client/surface.cpp:122-126 | needs a valid surface; forwards buffer and offset without changing state |
| ClientSurface.SetSize | src/client/surface.cpp:128-135 | afterwards the size is the given one; no signal is emitted iff the size was already equal; otherwise `sizeChanged` is emitted once with the new size |
| ClientSurface.ReleaseIdempotent | src/client/surface.cpp:46-53 | a second `release` performs nothing |
| ClientSurface.DestroyIdempotent | src/client/surface.cpp:55-62 | a second `destroy` performs nothing |
| ClientSurface.SetupReleaseRoundTrip | src/client/surface.cpp:46-69 | `release` after `setup` returns the surface to its earlier state and destroys exactly the adopted proxy |
| ClientSurface.FrameCallbackCycle | src/client/surface.cpp:81-98 | installing then handling a frame callback restores the surface and yields exactly one frame request, one listener registration and one `frameRendered` |
| ClientSurface.CommitFrameCallbackCycle | src/client/surface.cpp:71-107 | a commit with `FrameCallback`, followed by the listener reporting the frame done, restores the surface; the calls are one frame request, one listener registration, one commit, one `wl_callback_destroy` and one `frameRendered`, in that order |
| ClientSurface.SetSizeIdempotent | src/client/surface.cpp:128-135 | repeating `setSize` with the same size emits nothing |
| SurfaceRegistry.RemoveAll | src/client/surface.cpp:40-42 | the removed identity no longer occurs, every other identity occurs iff it did before, and a list without it is unchanged |
| SurfaceRegistry.RemoveAllAppend | src/client/surface.cpp:40-42 | removal distributes over concatenation, so the survivors keep their relative order |
| SurfaceRegistry.RemoveAllAt | src/client/surface.cpp:40-42 | in a list without duplicates, removing the entry at position k leaves exactly the entries before k followed by those after k |
| SurfaceRegistry.Construct | src/client/surface.cpp:32-38 | the new surface is appended after the existing entries, which are kept in order; its state is that of a new surface; the list still names each live surface exactly once |
| SurfaceRegistry.Destruct | src/client/surface.cpp:40-44 | the destroyed surface leaves the list and the heap; in a list without duplicates, the new list is the old one with its entry cut out, so the others keep their order; every other surface keeps its state; the list shrinks by one; the effects are those of its `release` |
| SurfaceRegistry.ConstructDestructRoundTrip | src/client/surface.cpp:32-44 | destroying a freshly constructed surface restores the registry exactly and performs no libwayland call |
| SurfaceRegistry.FindFrom | src/client/surface.cpp:137-148 | the reference definition of `get`: none iff no listed surface matches; otherwise a position that matches with no match before it |
| SurfaceRegistry.Get | src/client/surface.cpp:137-148 | returns the surface at the first matching position of the reference definition, or null iff none matches; a null proxy finds the first surface without one |
| SurfaceRegistry.All | src/client/surface.cpp:150-153 | lists exactly the live surfaces, one entry each |
| SurfaceRegistry.AllAfterConstruct | src/client/surface.cpp:32-38 | after construction, `all` is the earlier `all` followed by the new surface |
| SurfaceRegistry.AllAfterDestruct | src/client/surface.cpp:40-44 | after destroying the surface at position k, `all` is the earlier `all` with that entry cut out and the rest in construction order |
| SurfaceRegistry.FindAfterConstruct | src/client/surface.cpp:32-38 | constructing a surface does not change what `get` finds for any non-null proxy |
| SurfaceRegistry.SetupThenGet | src/client/surface.cpp:137-148 | after `setup(native)` on a listed surface, `get(native)` finds it unless an earlier surface holds the same proxy |
| DataControl.Init | autotests/client/test_datacontrol.cpp:232-235 | a new seat has both slots empty, no sources and no devices, and satisfies the invariant |
| DataControl.SetSlot | autotests/client/test_datacontrol.cpp:294-331 | the slot ends holding the given source (or none) and the other slot is untouched; unless the source was already current, every attached device receives exactly one event: an offer for that slot whose list equals the source's list, or a cleared event; the previous source is cancelled; only the installed source becomes frozen, every other source is unchanged; the invariant is kept |
| DataControl.CreateSource | autotests/client/test_datacontrol.cpp:139-142 | the new source has exactly the given list under the next value of the source counter, which then advances by one; on a valid seat no live source or earlier offer uses that id; every other field, the device counter included, is unchanged; the invariant is kept |
| DataControl.AddMimeType | autotests/client/test_datacontrol.cpp:343-345 | succeeds iff the source lives and is not installed; then the MIME type is appended at the end of its list and nothing else changes |
| DataControl.DestroySource | autotests/client/test_datacontrol.cpp:128-131 | succeeds iff the source lives; afterwards it is gone, every slot that held it is empty, and the other slot is unchanged; each device receives one cleared event per slot that held it (regular first) and nothing else; the source is cancelled once per slot it held; the id counters are unchanged; the invariant is kept |
| DataControl.AttachDevice | autotests/client/test_datacontrol.cpp:289-292 | a device with an empty log is added under the next value of the device counter, which then advances by one, with no surface or focus condition; slots, sources, cancellations and the source counter are untouched |
| DataControl.DetachDevice | autotests/client/test_datacontrol.cpp:289-305 | the device and its pending offers are gone; every other device is unchanged |
| DataControl.DetachIdempotent | autotests/client/test_datacontrol.cpp:289-305 | detaching twice equals detaching once |
| DataControl.DeviceSetSelection | autotests/client/test_datacontrol.cpp:343-351 | from a known device, any source without the marker, or none, becomes the regular selection and the primary is untouched; a successful request has exactly the effect of the seat installing that source in the regular slot (announcements and cancellation included); a marker-tagged source is refused with `SlotOccupied` exactly when the regular slot is occupied; unknown device or source are reported |
| DataControl.RequestData | autotests/client/test_datacontrol.cpp:132-136 | a data request on a device's offer resolves to the offer's source iff no later event on that device concerns the same slot and the source still lives; on a valid seat that source then holds the offer's slot and its list is the offer's list; otherwise `StaleOffer`, `UnknownOffer` or `UnknownDevice` |
| DataControl.CurrentOfferIsServed | autotests/client/test_datacontrol.cpp:128-136 | on a valid seat an offer is served iff it is the device's latest event about its slot |
| DataControl.OneCurrentOfferPerSlot | autotests/client/test_datacontrol.cpp:128-136 | two served offers on one device for the same slot are the same offer |
| DataControl.ReplaceMakesOffersStale | autotests/client/test_datacontrol.cpp:294-331 | installing a different source, or none, in a slot turns every earlier offer for that slot on every device into `StaleOffer` |
| DataControl.DestroyMakesOffersStale | autotests/client/test_datacontrol.cpp:128-136 | after a source is destroyed, every offer of it on every device resolves to `StaleOffer` |
| DataControl.RunKeepsRetired | autotests/client/test_datacontrol.cpp:289-292 | under any sequence of requests, a detached device's id is never attached again and a destroyed source's id never names a live source again |
| DataControl.DetachedStaysUnknown | autotests/client/test_datacontrol.cpp:289-305 | after a device is detached, a data request through its id reports `UnknownDevice` whatever requests follow, so it never reads another device's log |
| DataControl.RunKeepsValid | autotests/client/test_datacontrol.cpp:120-143 | any sequence of requests from a valid seat keeps every slot on a live source and every offer of a live source equal to its list |
| DataControl.ReachableIsValid | autotests/client/test_datacontrol.cpp:120-143 | every seat reachable from a new one satisfies the invariant |
| DataControlTests.CopyToControl | autotests/client/test_datacontrol.cpp:284-303 | on any valid seat, installing a new source in either slot hands an attached device exactly one offer for that slot carrying the source's list |
| DataControlTests.TestCopyToControl | autotests/client/test_datacontrol.cpp:284-305 | the device's only event is a regular-selection offer whose list has length 1 and is "text/plain" |
| DataControlTests.TestCopyToControlPrimarySelection | autotests/client/test_datacontrol.cpp:307-332 | the device's only event is a primary-selection offer whose list has length 1 and is "text/plain" |
| DataControlTests.CopyFromControl | autotests/client/test_datacontrol.cpp:334-351 | on any valid seat, a control device's own unmarked source becomes the regular selection with the list it was given |
| DataControlTests.TestCopyFromControl | autotests/client/test_datacontrol.cpp:334-375 | after the device sets its "text/plain" source, the seat's regular selection is set and its first MIME type is "text/plain" |
| DataControlTests.RestoreOnlyReplacesEmpty | autotests/client/test_datacontrol.cpp:408-417 | a marker-tagged source is refused whenever a selection exists and installed when the slot is empty |
| DataControlTests.CachedReassertRefused | autotests/client/test_datacontrol.cpp:408-414 | on any valid seat with a regular selection, a new source listing a cached type and then the marker is refused by a control device with `SlotOccupied`, and the selection is unchanged |
| DataControlTests.TestKlipperCase | autotests/client/test_datacontrol.cpp:377-418 | the clipboard manager is offered A's first source and then told the selection is cleared when A destroys it; A's second source becomes the selection; the marker-tagged re-assertion is refused and the selection remains A's second source |

## Left out

- Connection setup and teardown in the test fixture (display, socket, connection thread, event queue, registry binding) are I/O and threading, so they are not modelled.
- The byte transfer of `requestData(mimeType, fd)` and the source's `cancel()` are out-of-band file-descriptor I/O and notifications to the client. A request only resolves to the source it would reach, and a cancellation is only recorded in the seat's `cancelled` list.
- The seat and data-control device implementation on the server side are not part of this model. Their behaviour is taken from the assertions of the tests. Three things are not modelled for that reason: a control device setting the primary selection, the current selection being sent to a newly created device, and any reply to a refused marker-tagged source beyond the `SlotOccupied` error.
- Keyboard focus, ordinary (non-control) data devices and their serial checks are not modelled. Only control devices are modelled, and they have no such precondition.
- A per-slot generation counter is not modelled. An offer's position in its device's log takes its place: a later event about the same slot marks the offer as replaced.
- The `wl_surface_*`, `wl_callback_*` and `free` calls are opaque. They appear only as effect records in the order they are made. The callback object is not identified, so `wl_callback_add_listener` and `wl_callback_destroy` carry no argument.
- `Surface::isValid` is declared in the surface header, which is not part of this model. It is modelled as "holds a native proxy".
- The rest of KWayland is out of scope: the other client wrappers (buffers, shared-memory pools, the registry, shell protocols) and the server-side protocol implementations other than the selection behaviour described above.
- The surface registry's `Valid` (each live surface listed exactly once) is an invariant of the model. `Get` and `FindFrom` only need every listed surface to be live.

=== FILE: data_control.dfy ===
/** Selection arbitration on a seat, as observed through data-control
    devices. The seat has two slots, the regular selection and the primary
    selection; each holds at most one current source. Every change of a slot
    is announced to every attached control device: a new offer carrying a
    copy of the source's MIME list, or a cleared selection. Control devices
    hold no surface and need no keyboard focus. A control device may install
    its own source as the regular selection; such a request for a source
    that advertises `application/x-kde-onlyReplaceEmpty` succeeds only while
    the slot is empty. The seat's own install does not look at the marker.
    Byte transfer is out of band and stays abstract: a data request is
    resolved to the live source it would be forwarded to, or to an error. */
module DataControl {
  import opened Wrappers

  type SourceId = nat
  type DeviceId = nat
  type MimeType = string

  /** The marker a clipboard manager adds when it re-asserts cached content. */
  const OnlyReplaceEmpty: MimeType := "application/x-kde-onlyReplaceEmpty"

  datatype SlotKind = Regular | Primary

  /** A data source: its MIME types in the order they were offered, and
      whether it has been installed in a slot (after which its list is frozen). */
  datatype Source = Source(mimeTypes: seq<MimeType>, installed: bool)

  /** What a device is handed when a slot changes: a snapshot of the source's list. */
  datatype Offer = Offer(kind: SlotKind, source: SourceId, mimeTypes: seq<MimeType>)

  datatype DeviceEvent = Offered(offer: Offer) | Cleared(kind: SlotKind)

  /** A control device: the events it has received, oldest first. */
  datatype Device = Device(log: seq<DeviceEvent>)

  datatype Seat = Seat(
    selection: Option<SourceId>,
    primarySelection: Option<SourceId>,
    sources: map<SourceId, Source>,
    devices: map<DeviceId, Device>,
    cancelled: seq<SourceId>,
    nextSource: nat,
    nextDevice: nat)

  datatype Error = UnknownSource | UnknownDevice | UnknownOffer | SourceInUse | SlotOccupied | StaleOffer

  function Slot(seat: Seat, kind: SlotKind): Option<SourceId> {
    match kind
    case Regular => seat.selection
    case Primary => seat.primarySelection
  }

  function Other(kind: SlotKind): SlotKind {
    if kind == Regular then Primary else Regular
  }

  /** The slot an event is about. */
  function EventKind(ev: DeviceEvent): SlotKind {
    match ev
    case Offered(offer) => offer.kind
    case Cleared(kind) => kind
  }

  /** The `i`-th event is the device's latest word on its slot: no later
      event concerns the same slot. An offer that is not latest has been
      replaced on that device. */
  predicate Latest(log: seq<DeviceEvent>, i: int) {
    && 0 <= i < |log|
    && forall j :: i < j < |log| ==> EventKind(log[j]) != EventKind(log[i])
  }

  /** The event describes `slot`: an offer of the source it holds, or a clear of an empty slot. */
  predicate Announces(ev: DeviceEvent, slot: Option<SourceId>) {
    if ev.Offered? then slot == Some(ev.offer.source) else slot.None?
  }

  /** The source asks to be installed only while the slot is empty. */
  predicate RestoreOnlyIfEmpty(src: Source) {
    OnlyReplaceEmpty in src.mimeTypes
  }

  // ---------------------------------------------------------------------------
  // Invariant

  /** An offer names a source id that has been handed out; while that source
      lives, it is frozen and the offer's list equals its list, in order. */
  ghost predicate EventSound(sources: map<SourceId, Source>, nextSource: nat, ev: DeviceEvent) {
    ev.Offered? ==>
      && ev.offer.source < nextSource
      && (ev.offer.source in sources ==>
            sources[ev.offer.source].installed && sources[ev.offer.source].mimeTypes == ev.offer.mimeTypes)
  }

  ghost predicate DeviceSound(sources: map<SourceId, Source>, nextSource: nat, dev: Device) {
    forall i :: 0 <= i < |dev.log| ==> EventSound(sources, nextSource, dev.log[i])
  }

  /** A slot is empty or holds a live, installed source. */
  ghost predicate SlotSound(sources: map<SourceId, Source>, slot: Option<SourceId>) {
    slot.Some? ==> slot.value in sources && sources[slot.value].installed
  }

  /** Each device's latest event about a slot describes what the slot holds now. */
  ghost predicate DeviceCurrent(seat: Seat, dev: Device) {
    forall i :: Latest(dev.log, i) ==> Announces(dev.log[i], Slot(seat, EventKind(dev.log[i])))
  }

  /** What every reachable seat satisfies: no slot refers to a destroyed
      source, every offer of a live source is a copy of its list, every
      device's latest word on a slot is what the slot holds, and every live
      or offered id is below its allocation counter. The counters only grow
      (`Apply`), so an id is never handed out twice (`RunKeepsRetired`). */
  ghost predicate Valid(seat: Seat) {
    && SlotSound(seat.sources, seat.selection)
    && SlotSound(seat.sources, seat.primarySelection)
    && (forall id :: id in seat.sources ==> id < seat.nextSource)
    && (forall d :: d in seat.devices ==> d < seat.nextDevice)
    && (forall d :: d in seat.devices ==> DeviceSound(seat.sources, seat.nextSource, seat.devices[d]))
    && (forall d :: d in seat.devices ==> DeviceCurrent(seat, seat.devices[d]))
  }

  /** A device stays current while neither slot changes. */
  lemma SameSlotsKeepCurrent(seat: Seat, seat': Seat, dev: Device)
    requires seat'.selection == seat.selection && seat'.primarySelection == seat.primarySelection
    requires DeviceCurrent(seat, dev)
    ensures DeviceCurrent(seat', dev)
  {
    forall i | Latest(dev.log, i)
      ensures Announces(dev.log[i], Slot(seat', EventKind(dev.log[i])))
    {
      assert Slot(seat', EventKind(dev.log[i])) == Slot(seat, EventKind(dev.log[i]));
    }
  }

  /** Announcing the new content of one slot keeps a device current; what it
      last heard about the other slot is still its latest word there. */
  lemma AnnounceKeepsCurrent(seat: Seat, seat': Seat, dev: Device, ev: DeviceEvent)
    requires DeviceCurrent(seat, dev)
    requires Slot(seat', Other(EventKind(ev))) == Slot(seat, Other(EventKind(ev)))
    requires Announces(ev, Slot(seat', EventKind(ev)))
    ensures DeviceCurrent(seat', Device(dev.log + [ev]))
  {
    var log := dev.log + [ev];
    forall i | Latest(log, i)
      ensures Announces(log[i], Slot(seat', EventKind(log[i])))
    {
      if i < |dev.log| {
        assert EventKind(log[|dev.log|]) != EventKind(log[i]);
        assert EventKind(log[i]) == Other(EventKind(ev));
        forall j | i < j < |dev.log|
          ensures EventKind(dev.log[j]) != EventKind(dev.log[i])
        {
          assert log[j] == dev.log[j];
        }
        assert Latest(dev.log, i);
      }
    }
  }

  /** Freezing a source whose list is unchanged keeps every event sound. */
  lemma InstallKeepsEventsSound(sources: map<SourceId, Source>, nextSource: nat, id: SourceId, dev: Device)
    requires id in sources
    requires DeviceSound(sources, nextSource, dev)
    ensures DeviceSound(sources[id := sources[id].(installed := true)], nextSource, dev)
  {
    var sources' := sources[id := sources[id].(installed := true)];
    forall i | 0 <= i < |dev.log|
      ensures EventSound(sources', nextSource, dev.log[i])
    {
      assert EventSound(sources, nextSource, dev.log[i]);
    }
  }

  /** Changes to a source no event refers to, or its removal, keep every event sound. */
  lemma UnreferencedChangeKeepsEventsSound(sources: map<SourceId, Source>, sources': map<SourceId, Source>,
                                           nextSource: nat, nextSource': nat, dev: Device)
    requires nextSource <= nextSource'
    requires forall id :: id in sources' && id < nextSource ==> id in sources && sources'[id] == sources[id]
    requires DeviceSound(sources, nextSource, dev)
    ensures DeviceSound(sources', nextSource', dev)
  {
    forall i | 0 <= i < |dev.log|
      ensures EventSound(sources', nextSource', dev.log[i])
    {
      assert EventSound(sources, nextSource, dev.log[i]);
    }
  }

  // ---------------------------------------------------------------------------
  // Operations

  /** A new seat: both slots empty, no sources, no devices. */
  function Init(): (seat: Seat)
    ensures Valid(seat)
    ensures Slot(seat, Regular).None? && Slot(seat, Primary).None?
    ensures |seat.sources| == 0 && |seat.devices| == 0
  {
    Seat(None, None, map[], map[], [], 0, 0)
  }

  /** Appends the same event to every attached device's log. */
  function Broadcast(devices: map<DeviceId, Device>, ev: DeviceEvent): (r: map<DeviceId, Device>)
    ensures r.Keys == devices.Keys
    ensures forall d :: d in devices ==> r[d].log == devices[d].log + [ev]
  {
    map d | d in devices :: Device(devices[d].log + [ev])
  }

  /** The seat's `setSelection` / `setPrimarySelection`: installing the
      current source again changes nothing; otherwise the previous source is
      cancelled, the slot takes the new source (or becomes empty) and every
      attached device receives exactly one event announcing it. */
  function SetSlot(seat: Seat, kind: SlotKind, src: Option<SourceId>): (r: Seat)
    requires src.Some? ==> src.value in seat.sources
    ensures Slot(r, kind) == src
    ensures Slot(r, Other(kind)) == Slot(seat, Other(kind))
    ensures Valid(seat) ==> Valid(r)
    ensures r.sources.Keys == seat.sources.Keys && r.devices.Keys == seat.devices.Keys
    ensures forall id :: id in seat.sources ==> r.sources[id].mimeTypes == seat.sources[id].mimeTypes
    ensures r.nextSource == seat.nextSource && r.nextDevice == seat.nextDevice
    ensures Slot(seat, kind) == src ==> r == seat
    ensures Slot(seat, kind) != src ==>
      r.sources == if src.Some? then seat.sources[src.value := seat.sources[src.value].(installed := true)] else seat.sources
    ensures Slot(seat, kind) != src && src.Some? ==>
      forall d :: d in seat.devices ==>
        r.devices[d].log == seat.devices[d].log + [Offered(Offer(kind, src.value, seat.sources[src.value].mimeTypes))]
    ensures Slot(seat, kind) != src && src.None? ==>
      forall d :: d in seat.devices ==> r.devices[d].log == seat.devices[d].log + [Cleared(kind)]
    ensures Slot(seat, kind) != src && Slot(seat, kind).Some? ==>
      r.cancelled == seat.cancelled + [Slot(seat, kind).value]
    ensures Slot(seat, kind) != src && Slot(seat, kind).None? ==> r.cancelled == seat.cancelled
  {
    if Slot(seat, kind) == src then seat
    else
      var prev := Slot(seat, kind);
      var cancelled := seat.cancelled + (if prev.Some? then [prev.value] else []);
      var ev := if src.Some? then Offered(Offer(kind, src.value, seat.sources[src.value].mimeTypes)) else Cleared(kind);
      var sources := if src.Some? then seat.sources[src.value := seat.sources[src.value].(installed := true)] else seat.sources;
      var devices := Broadcast(seat.devices, ev);
      var r := Seat(
        if kind == Regular then src else seat.selection,
        if kind == Primary then src else seat.primarySelection,
        sources, devices, cancelled, seat.nextSource, seat.nextDevice);
      SetSlotKeepsValid(seat, kind, src, r);
      r
  }

  lemma SetSlotKeepsValid(seat: Seat, kind: SlotKind, src: Option<SourceId>, r: Seat)
    requires src.Some? ==> src.value in seat.sources
    requires Slot(r, kind) == src && Slot(r, Other(kind)) == Slot(seat, Other(kind))
    requires r.nextSource == seat.nextSource && r.nextDevice == seat.nextDevice
    requires r.sources == if src.Some? then seat.sources[src.value := seat.sources[src.value].(installed := true)] else seat.sources
    requires r.devices == Broadcast(seat.devices,
      if src.Some? then Offered(Offer(kind, src.value, seat.sources[src.value].mimeTypes)) else Cleared(kind))
    ensures Valid(seat) ==> Valid(r)
  {
    if Valid(seat) {
      var ev := if src.Some? then Offered(Offer(kind, src.value, seat.sources[src.value].mimeTypes)) else Cleared(kind);
      assert EventSound(r.sources, r.nextSource, ev);
      forall d | d in r.devices
        ensures DeviceSound(r.sources, r.nextSource, r.devices[d])
        ensures DeviceCurrent(r, r.devices[d])
      {
        var before := seat.devices[d];
        if src.Some? {
          InstallKeepsEventsSound(seat.sources, seat.nextSource, src.value, before);
        }
        assert DeviceSound(r.sources, r.nextSource, before);
        var log := r.devices[d].log;
        assert log == before.log + [ev];
        forall i | 0 <= i < |log|
          ensures EventSound(r.sources, r.nextSource, log[i])
        {
          if i < |before.log| {
            assert log[i] == before.log[i];
          }
        }
        assert EventKind(ev) == kind && Announces(ev, Slot(r, kind));
        AnnounceKeepsCurrent(seat, r, before, ev);
        assert r.devices[d] == Device(before.log + [ev]);
      }
      assert SlotSound(r.sources, Slot(seat, Other(kind)));
      if kind == Regular {
        assert SlotSound(r.sources, r.primarySelection);
      } else {
        assert SlotSound(r.sources, r.selection);
      }
    }
  }

  /** A new source with the given MIME list under the next id of the source
      counter, which no earlier source has had; nothing else changes. A control client's `createDataSource`
      starts with the empty list. */
  function CreateSource(seat: Seat, mimeTypes: seq<MimeType>): (r: (Seat, SourceId))
    ensures Valid(seat) ==> r.1 !in seat.sources
    ensures r.0.sources == seat.sources[r.1 := Source(mimeTypes, false)]
    ensures r.0.selection == seat.selection && r.0.primarySelection == seat.primarySelection
    ensures r.0.devices == seat.devices && r.0.cancelled == seat.cancelled
    ensures r.1 == seat.nextSource && r.0.nextSource == r.1 + 1 && r.0.nextDevice == seat.nextDevice
    ensures Valid(seat) ==> Valid(r.0)
    ensures Valid(seat) ==> forall d, i :: d in seat.devices && 0 <= i < |seat.devices[d].log| && seat.devices[d].log[i].Offered?
                                         ==> seat.devices[d].log[i].offer.source != r.1
  {
    var id := seat.nextSource;
    var r := seat.(sources := seat.sources[id := Source(mimeTypes, false)], nextSource := id + 1);
    CreateSourceKeepsValid(seat, mimeTypes);
    (r, id)
  }

  lemma CreateSourceKeepsValid(seat: Seat, mimeTypes: seq<MimeType>)
    ensures Valid(seat) ==>
      Valid(seat.(sources := seat.sources[seat.nextSource := Source(mimeTypes, false)], nextSource := seat.nextSource + 1))
    ensures Valid(seat) ==> forall d, i :: d in seat.devices && 0 <= i < |seat.devices[d].log| && seat.devices[d].log[i].Offered?
                                         ==> seat.devices[d].log[i].offer.source != seat.nextSource
  {
    if Valid(seat) {
      var r := seat.(sources := seat.sources[seat.nextSource := Source(mimeTypes, false)], nextSource := seat.nextSource + 1);
      forall d | d in r.devices
        ensures DeviceSound(r.sources, r.nextSource, r.devices[d])
        ensures DeviceCurrent(r, r.devices[d])
      {
        UnreferencedChangeKeepsEventsSound(seat.sources, r.sources, seat.nextSource, r.nextSource, seat.devices[d]);
        SameSlotsKeepCurrent(seat, r, seat.devices[d]);
      }
      forall d, i | d in seat.devices && 0 <= i < |seat.devices[d].log| && seat.devices[d].log[i].Offered?
        ensures seat.devices[d].log[i].offer.source != seat.nextSource
      {
        assert EventSound(seat.sources, seat.nextSource, seat.devices[d].log[i]);
      }
    }
  }

  /** The source's `offer(mimeType)`: appends one MIME type to a live source
      that has not been installed yet. */
  function AddMimeType(seat: Seat, id: SourceId, mimeType: MimeType): (r: Result<Seat, Error>)
    ensures id !in seat.sources ==> r == Failure(UnknownSource)
    ensures id in seat.sources && seat.sources[id].installed ==> r == Failure(SourceInUse)
    ensures r.Success? <==> id in seat.sources && !seat.sources[id].installed
    ensures r.Success? ==> r.value.sources == seat.sources[id := Source(seat.sources[id].mimeTypes + [mimeType], false)]
    ensures r.Success? ==> r.value.(sources := seat.sources) == seat
    ensures r.Success? && Valid(seat) ==> Valid(r.value)
  {
    if id !in seat.sources then Failure(UnknownSource)
    else if seat.sources[id].installed then Failure(SourceInUse)
    else
      var src := seat.sources[id];
      var r := seat.(sources := seat.sources[id := src.(mimeTypes := src.mimeTypes + [mimeType])]);
      AddMimeTypeKeepsValid(seat, id, r);
      Success(r)
  }

  lemma AddMimeTypeKeepsValid(seat: Seat, id: SourceId, r: Seat)
    requires id in seat.sources && !seat.sources[id].installed
    requires r.sources.Keys == seat.sources.Keys && !r.sources[id].installed
    requires forall y :: y in seat.sources && y != id ==> r.sources[y] == seat.sources[y]
    requires r.(sources := seat.sources) == seat
    ensures Valid(seat) ==> Valid(r)
  {
    if !Valid(seat) { return; }
    forall d | d in r.devices
      ensures DeviceSound(r.sources, r.nextSource, r.devices[d])
      ensures DeviceCurrent(r, r.devices[d])
    {
      var dev := seat.devices[d];
      SameSlotsKeepCurrent(seat, r, dev);
      forall i | 0 <= i < |dev.log|
        ensures EventSound(r.sources, r.nextSource, dev.log[i])
      {
        assert EventSound(seat.sources, seat.nextSource, dev.log[i]);
      }
    }
  }

  /** Destruction of a source: it announces `aboutToBeDestroyed`, every slot
      holding it is cleared (and the devices told so), then it is gone. */
  function DestroySource(seat: Seat, id: SourceId): (r: Result<Seat, Error>)
    ensures r.Success? <==> id in seat.sources
    ensures r.Failure? ==> r.error == UnknownSource
    ensures r.Success? ==> r.value.sources == seat.sources - {id}
    ensures r.Success? ==> forall k :: Slot(seat, k) == Some(id) ==> Slot(r.value, k).None?
    ensures r.Success? ==> forall k :: Slot(seat, k) != Some(id) ==> Slot(r.value, k) == Slot(seat, k)
    ensures r.Success? ==> r.value.devices.Keys == seat.devices.Keys
    ensures r.Success? ==> forall d :: d in seat.devices ==>
      (r.value.devices[d].log == seat.devices[d].log
         + (if seat.selection == Some(id) then [Cleared(Regular)] else [])
         + (if seat.primarySelection == Some(id) then [Cleared(Primary)] else []))
    ensures r.Success? ==>
      (r.value.cancelled == seat.cancelled
         + (if seat.selection == Some(id) then [id] else [])
         + (if seat.primarySelection == Some(id) then [id] else []))
    ensures r.Success? ==> r.value.nextSource == seat.nextSource && r.value.nextDevice == seat.nextDevice
    ensures r.Success? && Valid(seat) ==> Valid(r.value)
  {
    if id !in seat.sources then Failure(UnknownSource)
    else
      var s1 := if seat.selection == Some(id) then SetSlot(seat, Regular, None) else seat;
      var s2 := if s1.primarySelection == Some(id) then SetSlot(s1, Primary, None) else s1;
      var r := s2.(sources := s2.sources - {id});
      RemoveSourceKeepsValid(s2, id, r);
      Success(r)
  }

  lemma RemoveSourceKeepsValid(seat: Seat, id: SourceId, r: Seat)
    requires seat.selection != Some(id) && seat.primarySelection != Some(id)
    requires r == seat.(sources := seat.sources - {id})
    ensures Valid(seat) ==> Valid(r)
  {
    if Valid(seat) {
      forall d | d in r.devices
        ensures DeviceSound(r.sources, r.nextSource, r.devices[d])
        ensures DeviceCurrent(r, r.devices[d])
      {
        UnreferencedChangeKeepsEventsSound(seat.sources, r.sources, seat.nextSource, r.nextSource, seat.devices[d]);
        SameSlotsKeepCurrent(seat, r, seat.devices[d]);
      }
    }
  }

  /** The control manager's `getDataDevice`: a new device with an empty log,
      under the next id of the device counter, which no earlier device has had. No surface or focus is involved. */
  function AttachDevice(seat: Seat): (r: (Seat, DeviceId))
    ensures Valid(seat) ==> r.1 !in seat.devices
    ensures r.0.devices == seat.devices[r.1 := Device([])]
    ensures r.0.selection == seat.selection && r.0.primarySelection == seat.primarySelection
    ensures r.0.sources == seat.sources && r.0.cancelled == seat.cancelled
    ensures r.1 == seat.nextDevice && r.0.nextDevice == r.1 + 1 && r.0.nextSource == seat.nextSource
    ensures Valid(seat) ==> Valid(r.0)
  {
    var id := seat.nextDevice;
    (seat.(devices := seat.devices[id := Device([])], nextDevice := id + 1), id)
  }

  /** Destruction of a device: it stops receiving events; its pending offers go with it. */
  function DetachDevice(seat: Seat, dev: DeviceId): (r: Seat)
    ensures dev !in r.devices
    ensures forall d :: d != dev && d in seat.devices ==> d in r.devices && r.devices[d] == seat.devices[d]
    ensures r.devices.Keys == seat.devices.Keys - {dev}
    ensures r.(devices := seat.devices) == seat
    ensures Valid(seat) ==> Valid(r)
  {
    seat.(devices := seat.devices - {dev})
  }

  /** A control device's `setSelection`: targets the regular slot. A source
      carrying the restore-only-if-empty marker is refused while the slot
      holds a source, so re-asserted cached content never replaces a
      fresher selection; any other source (or none) is installed. */
  function DeviceSetSelection(seat: Seat, dev: DeviceId, src: Option<SourceId>): (r: Result<Seat, Error>)
    ensures dev !in seat.devices ==> r == Failure(UnknownDevice)
    ensures dev in seat.devices && src.Some? && src.value !in seat.sources ==> r == Failure(UnknownSource)
    ensures r == Failure(SlotOccupied) <==>
      dev in seat.devices && src.Some? && src.value in seat.sources
      && RestoreOnlyIfEmpty(seat.sources[src.value]) && seat.selection.Some?
    ensures r.Success? <==>
      dev in seat.devices && (src.Some? ==> src.value in seat.sources
                                            && (RestoreOnlyIfEmpty(seat.sources[src.value]) ==> seat.selection.None?))
    ensures r.Success? ==> (src.Some? ==> src.value in seat.sources) && r.value == SetSlot(seat, Regular, src)
    ensures r.Success? ==> r.value.selection == src && r.value.primarySelection == seat.primarySelection
    ensures r.Success? ==> r.value.devices.Keys == seat.devices.Keys
    ensures r.Success? && src.Some? && seat.selection != src ==>
      forall d :: d in seat.devices ==>
        r.value.devices[d].log == seat.devices[d].log + [Offered(Offer(Regular, src.value, seat.sources[src.value].mimeTypes))]
    ensures r.Success? && Valid(seat) ==> Valid(r.value)
  {
    if dev !in seat.devices then Failure(UnknownDevice)
    else if src.Some? && src.value !in seat.sources then Failure(UnknownSource)
    else if src.Some? && RestoreOnlyIfEmpty(seat.sources[src.value]) && seat.selection.Some? then Failure(SlotOccupied)
    else Success(SetSlot(seat, Regular, src))
  }

  /** An offer's `receive`: the request for the `index`-th event of a device
      is forwarded to the offer's source while the offer is current, that is
      while no later event on the device has replaced it and the source lives.
      The transfer itself (MIME type and file descriptor) is out of band and
      has no effect here. */
  function RequestData(seat: Seat, dev: DeviceId, index: nat, mimeType: MimeType): (r: Result<SourceId, Error>)
    ensures dev !in seat.devices ==> r == Failure(UnknownDevice)
    ensures dev in seat.devices && (index >= |seat.devices[dev].log| || !seat.devices[dev].log[index].Offered?)
            ==> r == Failure(UnknownOffer)
    ensures r == Failure(StaleOffer) <==>
      dev in seat.devices && index < |seat.devices[dev].log| && seat.devices[dev].log[index].Offered?
      && (!Latest(seat.devices[dev].log, index) || seat.devices[dev].log[index].offer.source !in seat.sources)
    ensures r.Success? ==>
      dev in seat.devices && index < |seat.devices[dev].log| && seat.devices[dev].log[index].Offered?
      && Latest(seat.devices[dev].log, index)
      && r.value == seat.devices[dev].log[index].offer.source && r.value in seat.sources
    ensures dev in seat.devices && index < |seat.devices[dev].log| && seat.devices[dev].log[index].Offered?
      && Latest(seat.devices[dev].log, index) && seat.devices[dev].log[index].offer.source in seat.sources
      ==> r == Success(seat.devices[dev].log[index].offer.source)
    ensures r.Success? && Valid(seat) ==>
      && Slot(seat, seat.devices[dev].log[index].offer.kind) == Some(r.value)
      && seat.sources[r.value].mimeTypes == seat.devices[dev].log[index].offer.mimeTypes
  {
    if dev !in seat.devices then Failure(UnknownDevice)
    else
      var log := seat.devices[dev].log;
      if index >= |log| || !log[index].Offered? then Failure(UnknownOffer)
      else if !Latest(log, index) || log[index].offer.source !in seat.sources then Failure(StaleOffer)
      else
        assert Valid(seat) ==> EventSound(seat.sources, seat.nextSource, log[index]);
        assert Valid(seat) ==> DeviceCurrent(seat, seat.devices[dev]);
        Success(log[index].offer.source)
  }

  // ---------------------------------------------------------------------------
  // Properties over several operations

  /** On a valid seat a device's offer is served exactly when it is the
      device's latest word on its slot: staleness means replacement. */
  lemma CurrentOfferIsServed(seat: Seat, dev: DeviceId, index: nat, mimeType: MimeType)
    requires Valid(seat) && dev in seat.devices
    requires index < |seat.devices[dev].log| && seat.devices[dev].log[index].Offered?
    ensures RequestData(seat, dev, index, mimeType).Success? <==> Latest(seat.devices[dev].log, index)
  {
    var log := seat.devices[dev].log;
    if Latest(log, index) {
      assert DeviceCurrent(seat, seat.devices[dev]);
      assert SlotSound(seat.sources, Slot(seat, log[index].offer.kind));
    }
  }

  /** A device holds at most one current offer per slot. */
  lemma OneCurrentOfferPerSlot(seat: Seat, dev: DeviceId, i: nat, j: nat, mimeType: MimeType)
    requires RequestData(seat, dev, i, mimeType).Success? && RequestData(seat, dev, j, mimeType).Success?
    requires seat.devices[dev].log[i].offer.kind == seat.devices[dev].log[j].offer.kind
    ensures i == j
  {
    assert Latest(seat.devices[dev].log, i) && Latest(seat.devices[dev].log, j);
  }

  /** Installing a different source (or none) in a slot turns every earlier
      offer for that slot, on every device, stale. */
  lemma ReplaceMakesOffersStale(seat: Seat, kind: SlotKind, src: Option<SourceId>, dev: DeviceId, index: nat, mimeType: MimeType)
    requires src.Some? ==> src.value in seat.sources
    requires Slot(seat, kind) != src && dev in seat.devices
    requires index < |seat.devices[dev].log| && seat.devices[dev].log[index].Offered?
    requires seat.devices[dev].log[index].offer.kind == kind
    ensures RequestData(SetSlot(seat, kind, src), dev, index, mimeType) == Failure(StaleOffer)
  {
    var log := SetSlot(seat, kind, src).devices[dev].log;
    var n := |seat.devices[dev].log|;
    assert log[index] == seat.devices[dev].log[index];
    assert EventKind(log[n]) == kind;
  }

  /** Destroying a source turns every offer of it, on every device, stale. */
  lemma DestroyMakesOffersStale(seat: Seat, id: SourceId, dev: DeviceId, index: nat, mimeType: MimeType)
    requires id in seat.sources && dev in seat.devices
    requires index < |seat.devices[dev].log| && seat.devices[dev].log[index].Offered?
    requires seat.devices[dev].log[index].offer.source == id
    ensures RequestData(DestroySource(seat, id).value, dev, index, mimeType) == Failure(StaleOffer)
  {
    var r := DestroySource(seat, id).value;
    assert seat.devices[dev].log <= r.devices[dev].log;
    assert r.devices[dev].log[index] == seat.devices[dev].log[index];
  }

  /** Detaching twice is the same as detaching once. */
  lemma DetachIdempotent(seat: Seat, dev: DeviceId)
    ensures DetachDevice(DetachDevice(seat, dev), dev) == DetachDevice(seat, dev)
  {
  }

  /** The requests a seat and its clients can make. */
  datatype Op =
    | SeatSet(kind: SlotKind, src: Option<SourceId>)
    | NewSource(mimeTypes: seq<MimeType>)
    | OfferMime(id: SourceId, mimeType: MimeType)
    | DropSource(id: SourceId)
    | NewDevice
    | DropDevice(dev: DeviceId)
    | ControlSet(dev: DeviceId, src: Option<SourceId>)

  /** One request; a refused request leaves the seat as it was. A seat-side
      install of an unknown source is refused as well. */
  function Apply(seat: Seat, op: Op): (r: Seat)
    ensures Valid(seat) ==> Valid(r)
    ensures seat.nextSource <= r.nextSource && seat.nextDevice <= r.nextDevice
    ensures forall d :: d in r.devices ==> d in seat.devices || seat.nextDevice <= d
    ensures forall id :: id in r.sources ==> id in seat.sources || seat.nextSource <= id
  {
    match op
    case SeatSet(kind, src) =>
      if src.Some? && src.value !in seat.sources then seat else SetSlot(seat, kind, src)
    case NewSource(mimeTypes) => CreateSource(seat, mimeTypes).0
    case OfferMime(id, mimeType) => AddMimeType(seat, id, mimeType).GetOr(seat)
    case DropSource(id) => DestroySource(seat, id).GetOr(seat)
    case NewDevice => AttachDevice(seat).0
    case DropDevice(dev) => DetachDevice(seat, dev)
    case ControlSet(dev, src) => DeviceSetSelection(seat, dev, src).GetOr(seat)
  }

  function Run(seat: Seat, ops: seq<Op>): Seat
    decreases |ops|
  {
    if |ops| == 0 then seat else Run(Apply(seat, ops[0]), ops[1..])
  }

  /** Every seat reachable from a new one by any sequence of requests keeps
      the invariant: each slot is empty or holds a live source, and every
      offer of a live source lists exactly that source's MIME types in order. */
  lemma {:induction false} RunKeepsValid(seat: Seat, ops: seq<Op>)
    requires Valid(seat)
    ensures Valid(Run(seat, ops))
    decreases |ops|
  {
    if |ops| > 0 {
      RunKeepsValid(Apply(seat, ops[0]), ops[1..]);
    }
  }

  lemma ReachableIsValid(ops: seq<Op>)
    ensures Valid(Run(Init(), ops))
  {
    RunKeepsValid(Init(), ops);
  }

  /** A device id that was handed out and is no longer attached. */
  predicate Retired(seat: Seat, dev: DeviceId) {
    dev < seat.nextDevice && dev !in seat.devices
  }

  /** A source id that was handed out and whose source is gone. */
  predicate RetiredSource(seat: Seat, id: SourceId) {
    id < seat.nextSource && id !in seat.sources
  }

  /** Ids are never handed out again: a retired device id or source id stays
      retired under any sequence of requests. */
  lemma {:induction false} RunKeepsRetired(seat: Seat, ops: seq<Op>, dev: DeviceId, id: SourceId)
    ensures Retired(seat, dev) ==> Retired(Run(seat, ops), dev)
    ensures RetiredSource(seat, id) ==> RetiredSource(Run(seat, ops), id)
    decreases |ops|
  {
    if |ops| > 0 {
      RunKeepsRetired(Apply(seat, ops[0]), ops[1..], dev, id);
    }
  }

  /** After a device is detached, no later sequence of requests lets a data
      request through it reach any log: it is reported as an unknown device. */
  lemma DetachedStaysUnknown(seat: Seat, dev: DeviceId, ops: seq<Op>, index: nat, mimeType: MimeType)
    requires Valid(seat) && dev in seat.devices
    ensures RequestData(Run(DetachDevice(seat, dev), ops), dev, index, mimeType) == Failure(UnknownDevice)
  {
    RunKeepsRetired(DetachDevice(seat, dev), ops, dev, 0);
  }
}

=== FILE: data_control_tests.dfy ===
/** The behaviour the data-control test cases fix, stated over the seat
    model: first for every valid seat, then for the concrete sequence of
    requests each test case performs. */
module DataControlTests {
  import opened Wrappers
  import opened DataControl

  const TextPlain: MimeType := "text/plain"

  /** Installing a fresh source in a slot hands each attached device exactly
      one new event: an offer for that slot whose list is the source's list. */
  lemma CopyToControl(seat: Seat, dev: DeviceId, kind: SlotKind, mimeTypes: seq<MimeType>)
    requires Valid(seat) && dev in seat.devices
    ensures var (s1, src) := CreateSource(seat, mimeTypes);
            var s2 := SetSlot(s1, kind, Some(src));
            && Slot(s2, kind) == Some(src)
            && s2.devices[dev].log == seat.devices[dev].log + [Offered(Offer(kind, src, mimeTypes))]
  {
    var (s1, src) := CreateSource(seat, mimeTypes);
    assert Slot(s1, kind) != Some(src) by {
      assert SlotSound(seat.sources, Slot(seat, kind));
    }
  }

  /** `testCopyToControl`: a device with no surface sees the seat's new
      regular selection as one offer listing exactly "text/plain". */
  lemma TestCopyToControl()
    ensures var (s1, dev) := AttachDevice(Init());
            var (s2, src) := CreateSource(s1, [TextPlain]);
            var s3 := SetSlot(s2, Regular, Some(src));
            && |s3.devices[dev].log| == 1
            && s3.devices[dev].log[0].Offered?
            && s3.devices[dev].log[0].offer.kind == Regular
            && |s3.devices[dev].log[0].offer.mimeTypes| == 1
            && s3.devices[dev].log[0].offer.mimeTypes[0] == TextPlain
  {
    var (s1, dev) := AttachDevice(Init());
    CopyToControl(s1, dev, Regular, [TextPlain]);
  }

  /** `testCopyToControlPrimarySelection`: the same for the primary selection. */
  lemma TestCopyToControlPrimarySelection()
    ensures var (s1, dev) := AttachDevice(Init());
            var (s2, src) := CreateSource(s1, [TextPlain]);
            var s3 := SetSlot(s2, Primary, Some(src));
            && |s3.devices[dev].log| == 1
            && s3.devices[dev].log[0].Offered?
            && s3.devices[dev].log[0].offer.kind == Primary
            && |s3.devices[dev].log[0].offer.mimeTypes| == 1
            && s3.devices[dev].log[0].offer.mimeTypes[0] == TextPlain
  {
    var (s1, dev) := AttachDevice(Init());
    CopyToControl(s1, dev, Primary, [TextPlain]);
  }

  /** A control device's own source without the marker always becomes the
      regular selection, with the list it was given. */
  lemma CopyFromControl(seat: Seat, dev: DeviceId, mimeType: MimeType)
    requires Valid(seat) && dev in seat.devices && mimeType != OnlyReplaceEmpty
    ensures var (s1, src) := CreateSource(seat, []);
            var s2 := AddMimeType(s1, src, mimeType);
            && s2.Success?
            && var r := DeviceSetSelection(s2.value, dev, Some(src));
               && r.Success?
               && r.value.selection == Some(src)
               && r.value.sources[src].mimeTypes == [mimeType]
  {
    var (s1, src) := CreateSource(seat, []);
    assert src !in seat.sources;
    var s2 := AddMimeType(s1, src, mimeType);
    assert s2.value.sources[src].mimeTypes == [mimeType];
    assert !RestoreOnlyIfEmpty(s2.value.sources[src]);
  }

  /** `testCopyFromControl` (and `testCopyFromControlPrimarySelection`, which
      also checks the regular selection): after the device sets a source
      offering "text/plain", the seat's selection is set and lists it first. */
  lemma TestCopyFromControl()
    ensures var (s1, dev) := AttachDevice(Init());
            var (s2, src) := CreateSource(s1, []);
            var s3 := AddMimeType(s2, src, TextPlain);
            && s3.Success?
            && var r := DeviceSetSelection(s3.value, dev, Some(src));
               && r.Success?
               && r.value.selection.Some?
               && r.value.sources[r.value.selection.value].mimeTypes[0] == TextPlain
  {
    var (s1, dev) := AttachDevice(Init());
    CopyFromControl(s1, dev, TextPlain);
  }

  /** A marker-tagged source never replaces a current selection; it takes an
      empty slot. */
  lemma RestoreOnlyReplacesEmpty(seat: Seat, dev: DeviceId, src: SourceId)
    requires dev in seat.devices && src in seat.sources && RestoreOnlyIfEmpty(seat.sources[src])
    ensures seat.selection.Some? ==> DeviceSetSelection(seat, dev, Some(src)) == Failure(SlotOccupied)
    ensures seat.selection.None? ==> DeviceSetSelection(seat, dev, Some(src)).value.selection == Some(src)
  {
  }

  /** A clipboard manager's re-assertion of cached content (a new source
      listing some type and then the marker) is refused while the regular
      selection holds any source, and the selection stays as it was. */
  lemma CachedReassertRefused(seat: Seat, dev: DeviceId, cached: MimeType)
    requires Valid(seat) && dev in seat.devices && seat.selection.Some?
    ensures var (s1, k) := CreateSource(seat, []);
            var s2 := AddMimeType(s1, k, cached);
            s2.Success? &&
            var s3 := AddMimeType(s2.value, k, OnlyReplaceEmpty);
            s3.Success? &&
            DeviceSetSelection(s3.value, dev, Some(k)) == Failure(SlotOccupied) &&
            s3.value.selection == seat.selection
  {
    var (s1, k) := CreateSource(seat, []);
    var s2 := AddMimeType(s1, k, cached).value;
    var s3 := AddMimeType(s2, k, OnlyReplaceEmpty).value;
    assert s3.sources[k].mimeTypes == [cached, OnlyReplaceEmpty];
    assert RestoreOnlyIfEmpty(s3.sources[k]);
  }

  /** `testKlipperCase`: client A installs a source, the clipboard manager is
      offered it (as the only event on its device), A destroys it and installs
      a second one; the manager then re-asserts cached content tagged with the
      marker. The re-assertion is refused and the seat keeps A's second source
      as its selection. */
  lemma TestKlipperCase()
    ensures
      var (s1, dev) := AttachDevice(Init());
      var (s2, a) := CreateSource(s1, []);
      var s3 := DeviceSetSelection(s2, dev, Some(a));
      s3.Success? &&
      s3.value.devices[dev].log == [Offered(Offer(Regular, a, []))] &&
      var s4 := DestroySource(s3.value, a);
      s4.Success? &&
      s4.value.devices[dev].log == [Offered(Offer(Regular, a, [])), Cleared(Regular)] &&
      var (s5, b) := CreateSource(s4.value, []);
      var s6 := DeviceSetSelection(s5, dev, Some(b));
      s6.Success? &&
      s6.value.selection == Some(b) &&
      var (s7, k) := CreateSource(s6.value, []);
      var s8 := AddMimeType(s7, k, "fromKlipper/test1");
      s8.Success? &&
      var s9 := AddMimeType(s8.value, k, OnlyReplaceEmpty);
      s9.Success? &&
      DeviceSetSelection(s9.value, dev, Some(k)) == Failure(SlotOccupied) &&
      s9.value.selection == Some(b)
  {
    var (s1, dev) := AttachDevice(Init());
    var (s2, a) := CreateSource(s1, []);
    assert s2.devices[dev].log == [] && s2.selection.None? && s2.sources[a].mimeTypes == [];
    var s3 := DeviceSetSelection(s2, dev, Some(a)).value;
    assert s3.devices[dev].log == [Offered(Offer(Regular, a, []))];
    assert s3.selection == Some(a) && s3.primarySelection.None?;
    var s4 := DestroySource(s3, a).value;
    assert s4.selection.None?;
    var (s5, b) := CreateSource(s4, []);
    assert Valid(s5);
    var s6 := DeviceSetSelection(s5, dev, Some(b)).value;
    assert s6.selection == Some(b) && Valid(s6) && dev in s6.devices;
    CachedReassertRefused(s6, dev, "fromKlipper/test1");
  }
}

=== FILE: surface.dfy ===
/** One client-side `Surface` object: the native `wl_surface` proxy it wraps
    (or none), whether a frame callback is outstanding, and its last known
    size. Calls into libwayland are not executed; each operation instead
    returns the list of effects it would perform, in order, together with
    the new object state. */
module ClientSurface {
  import opened Wrappers

  /** Identity of a native `wl_surface` proxy (the pointer value). */
  type Native = nat

  /** Identity of a native `wl_buffer` proxy. */
  type BufferId = nat

  datatype Size = Size(width: int, height: int)

  /** A default-constructed size: both extents -1. */
  const InvalidSize: Size := Size(-1, -1)

  datatype Point = Point(x: int, y: int)

  datatype Rect = Rect(x: int, y: int, width: int, height: int)

  datatype CommitFlag = NoCommitFlag | FrameCallback

  /** Observable effects: calls into libwayland, `free`, and emitted signals. */
  datatype Effect =
    | WlSurfaceDestroy(native: Native)
    | Free(native: Native)
    | WlSurfaceFrame(native: Native)
    | WlCallbackAddListener
    | WlCallbackDestroy
    | WlSurfaceCommit(native: Native)
    | WlSurfaceDamage(native: Native, rect: Rect)
    | WlSurfaceAttach(native: Native, buffer: Option<BufferId>, offset: Point)
    | FrameRendered
    | SizeChanged(size: Size)

  datatype Surface = Surface(native: Option<Native>, frameCallbackInstalled: bool, size: Size)

  /** The state after an operation and the effects it performed, in order. */
  datatype Step = Step(surface: Surface, effects: seq<Effect>)

  /** A surface is valid while it holds a native proxy. */
  predicate IsValid(s: Surface) {
    s.native.Some?
  }

  /** A freshly constructed surface: no proxy, no frame callback, invalid size. */
  function Create(): (s: Surface)
    ensures !IsValid(s) && !s.frameCallbackInstalled
    ensures s.size.width < 0 && s.size.height < 0
  {
    Surface(None, false, InvalidSize)
  }

  /** `release`: destroys the proxy with `wl_surface_destroy` and forgets it;
      without a proxy it does nothing. */
  function Release(s: Surface): (r: Step)
    ensures !IsValid(r.surface)
    ensures r.surface.frameCallbackInstalled == s.frameCallbackInstalled
    ensures r.surface.size == s.size
    ensures !IsValid(s) ==> r == Step(s, [])
    ensures IsValid(s) ==> r.effects == [WlSurfaceDestroy(s.native.value)]
  {
    match s.native
    case None => Step(s, [])
    case Some(n) => Step(s.(native := None), [WlSurfaceDestroy(n)])
  }

  /** `destroy`: frees the proxy without telling the server and forgets it;
      without a proxy it does nothing. */
  function Destroy(s: Surface): (r: Step)
    ensures !IsValid(r.surface)
    ensures r.surface.frameCallbackInstalled == s.frameCallbackInstalled
    ensures r.surface.size == s.size
    ensures !IsValid(s) ==> r == Step(s, [])
    ensures IsValid(s) ==> r.effects == [Free(s.native.value)]
  {
    match s.native
    case None => Step(s, [])
    case Some(n) => Step(s.(native := None), [Free(n)])
  }

  /** `setup`: adopts a non-null native proxy; the surface must not hold one yet. */
  function Setup(s: Surface, native: Native): (r: Surface)
    requires !IsValid(s)
    ensures IsValid(r) && r.native.value == native
    ensures r.frameCallbackInstalled == s.frameCallbackInstalled && r.size == s.size
  {
    s.(native := Some(native))
  }

  /** `setupFrameCallback`: requests a frame callback on a valid surface that
      has none outstanding and registers the static listener on it. */
  function SetupFrameCallback(s: Surface): (r: Step)
    requires IsValid(s) && !s.frameCallbackInstalled
    ensures r.surface.frameCallbackInstalled
    ensures r.surface.native == s.native && r.surface.size == s.size
    ensures r.effects == [WlSurfaceFrame(s.native.value), WlCallbackAddListener]
  {
    Step(s.(frameCallbackInstalled := true), [WlSurfaceFrame(s.native.value), WlCallbackAddListener])
  }

  /** `handleFrameCallback`: the outstanding callback is gone and `frameRendered` is emitted. */
  function HandleFrameCallback(s: Surface): (r: Step)
    ensures !r.surface.frameCallbackInstalled
    ensures r.surface.native == s.native && r.surface.size == s.size
    ensures r.effects == [FrameRendered]
  {
    Step(s.(frameCallbackInstalled := false), [FrameRendered])
  }

  /** The static listener `frameCallback`: destroys the callback object when
      there is one, then hands over to `handleFrameCallback`. */
  function OnFrameDone(s: Surface, hasCallback: bool): (r: Step)
    ensures !r.surface.frameCallbackInstalled
    ensures r.surface.native == s.native && r.surface.size == s.size
    ensures hasCallback ==> r.effects == [WlCallbackDestroy, FrameRendered]
    ensures !hasCallback ==> r.effects == [FrameRendered]
  {
    var h := HandleFrameCallback(s);
    Step(h.surface, (if hasCallback then [WlCallbackDestroy] else []) + h.effects)
  }

  /** `commit`: on a valid surface; with `FrameCallback` a frame callback is
      requested first (so none may be outstanding), otherwise the flag is kept. */
  function Commit(s: Surface, flag: CommitFlag): (r: Step)
    requires IsValid(s)
    requires flag == FrameCallback ==> !s.frameCallbackInstalled
    ensures r.surface.native == s.native && r.surface.size == s.size
    ensures flag == FrameCallback ==> r.surface.frameCallbackInstalled
    ensures flag == FrameCallback ==>
      r.effects == [WlSurfaceFrame(s.native.value), WlCallbackAddListener, WlSurfaceCommit(s.native.value)]
    ensures flag != FrameCallback ==> r == Step(s, [WlSurfaceCommit(s.native.value)])
  {
    var pre := if flag == FrameCallback then SetupFrameCallback(s) else Step(s, []);
    Step(pre.surface, pre.effects + [WlSurfaceCommit(s.native.value)])
  }

  /** `damage(QRect)`: forwards one rectangle on a valid surface. */
  function DamageRect(s: Surface, rect: Rect): (r: Step)
    requires IsValid(s)
    ensures r.surface == s
    ensures r.effects == [WlSurfaceDamage(s.native.value, rect)]
  {
    Step(s, [WlSurfaceDamage(s.native.value, rect)])
  }

  /** `damage(QRegion)`: forwards every rectangle of the region in order.
      Validity is only demanded once a rectangle is forwarded, so an empty
      region is accepted on any surface. */
  function DamageRegion(s: Surface, rects: seq<Rect>): (r: Step)
    requires |rects| > 0 ==> IsValid(s)
    ensures r.surface == s
    ensures |r.effects| == |rects|
    ensures forall i :: 0 <= i < |rects| ==> r.effects[i] == WlSurfaceDamage(s.native.value, rects[i])
  {
    if |rects| == 0 then Step(s, [])
    else
      var rest := DamageRegion(s, rects[1..]);
      Step(s, DamageRect(s, rects[0]).effects + rest.effects)
  }

  /** `attachBuffer`: forwards a (possibly null) buffer and offset on a valid surface. */
  function AttachBuffer(s: Surface, buffer: Option<BufferId>, offset: Point): (r: Step)
    requires IsValid(s)
    ensures r.surface == s
    ensures r.effects == [WlSurfaceAttach(s.native.value, buffer, offset)]
  {
    Step(s, [WlSurfaceAttach(s.native.value, buffer, offset)])
  }

  /** `setSize`: stores a different size and emits `sizeChanged` with it once;
      the current size changes nothing and emits nothing. */
  function SetSize(s: Surface, size: Size): (r: Step)
    ensures r.surface.size == size
    ensures r.surface.native == s.native
    ensures r.surface.frameCallbackInstalled == s.frameCallbackInstalled
    ensures s.size == size <==> r.effects == []
    ensures s.size != size ==> r.effects == [SizeChanged(size)]
  {
    if s.size == size then Step(s, [])
    else Step(s.(size := size), [SizeChanged(size)])
  }

  /** A second `release` after the first is a no-op. */
  lemma ReleaseIdempotent(s: Surface)
    ensures Release(Release(s).surface) == Step(Release(s).surface, [])
  {
  }

  /** A second `destroy` after the first is a no-op. */
  lemma DestroyIdempotent(s: Surface)
    ensures Destroy(Destroy(s).surface) == Step(Destroy(s).surface, [])
  {
  }

  /** `release` undoes `setup`, destroying exactly the adopted proxy. */
  lemma SetupReleaseRoundTrip(s: Surface, native: Native)
    requires !IsValid(s)
    ensures Release(Setup(s, native)) == Step(s, [WlSurfaceDestroy(native)])
  {
  }

  /** A frame-callback round trip: installing then handling returns the flag
      to its previous (cleared) value and signals `frameRendered` exactly once. */
  lemma FrameCallbackCycle(s: Surface)
    requires IsValid(s) && !s.frameCallbackInstalled
    ensures HandleFrameCallback(SetupFrameCallback(s).surface).surface == s
    ensures SetupFrameCallback(s).effects + HandleFrameCallback(SetupFrameCallback(s).surface).effects
      == [WlSurfaceFrame(s.native.value), WlCallbackAddListener, FrameRendered]
  {
  }

  /** A commit with `FrameCallback`, followed by the compositor reporting
      the frame done through the static listener, returns the surface to its
      earlier state: the proxy sees one frame request, one listener, one
      commit, the callback object is destroyed, and `frameRendered` is
      emitted once. */
  lemma CommitFrameCallbackCycle(s: Surface)
    requires IsValid(s) && !s.frameCallbackInstalled
    ensures OnFrameDone(Commit(s, FrameCallback).surface, true).surface == s
    ensures Commit(s, FrameCallback).effects + OnFrameDone(Commit(s, FrameCallback).surface, true).effects
      == [WlSurfaceFrame(s.native.value), WlCallbackAddListener, WlSurfaceCommit(s.native.value),
          WlCallbackDestroy, FrameRendered]
  {
  }

  /** Repeating `setSize` with the same size emits nothing the second time. */
  lemma SetSizeIdempotent(s: Surface, size: Size)
    ensures SetSize(SetSize(s, size).surface, size) == Step(SetSize(s, size).surface, [])
  {
  }
}

=== FILE: surface_registry.dfy ===
/** The process-wide list of live client surfaces (`Surface::s_surfaces`).
    C++ object identity becomes a `SurfaceId`; the list holds ids in
    construction order and `heap` holds the current state of each live object. */
module SurfaceRegistry {
  import opened Wrappers
  import opened ClientSurface

  /** Identity of a `Surface` object (its address). */
  type SurfaceId = nat

  datatype Registry = Registry(all: seq<SurfaceId>, heap: map<SurfaceId, Surface>)

  /** The destructor's outcome: the registry afterwards and the effects of its `release`. */
  datatype Teardown = Teardown(registry: Registry, effects: seq<Effect>)

  /** Every listed id names a live object. */
  ghost predicate Listed(reg: Registry) {
    forall i :: 0 <= i < |reg.all| ==> reg.all[i] in reg.heap
  }

  /** The shape construction and destruction maintain: the list names exactly
      the live objects, each once. */
  ghost predicate Valid(reg: Registry) {
    && Listed(reg)
    && (forall id :: id in reg.heap ==> id in reg.all)
    && Distinct(reg.all)
  }

  ghost predicate Distinct(xs: seq<SurfaceId>) {
    forall i, j :: 0 <= i < j < |xs| ==> xs[i] != xs[j]
  }

  /** The object at position `i` is a match for `native`. */
  ghost predicate MatchAt(reg: Registry, native: Option<Native>, i: int)
    requires Listed(reg)
  {
    0 <= i < |reg.all| && reg.heap[reg.all[i]].native == native
  }

  /** `QList::removeAll`: drops every occurrence of `x` and keeps the rest in order. */
  function RemoveAll(xs: seq<SurfaceId>, x: SurfaceId): (r: seq<SurfaceId>)
    ensures x !in r
    ensures forall y :: y != x ==> (y in r <==> y in xs)
    ensures |r| <= |xs|
    ensures x !in xs ==> r == xs
  {
    if |xs| == 0 then []
    else if xs[0] == x then RemoveAll(xs[1..], x)
    else [xs[0]] + RemoveAll(xs[1..], x)
  }

  /** Removal distributes over concatenation, so the relative order of the
      remaining entries is that of the original list. */
  lemma {:induction false} RemoveAllAppend(xs: seq<SurfaceId>, ys: seq<SurfaceId>, x: SurfaceId)
    ensures RemoveAll(xs + ys, x) == RemoveAll(xs, x) + RemoveAll(ys, x)
  {
    if |xs| == 0 {
      assert xs + ys == ys;
    } else {
      assert (xs + ys)[1..] == xs[1..] + ys;
      RemoveAllAppend(xs[1..], ys, x);
    }
  }

  /** Removing an id from a list without duplicates shortens it by one and
      keeps every other entry distinct. */
  lemma {:induction false} RemoveAllDistinct(xs: seq<SurfaceId>, x: SurfaceId)
    ensures Distinct(xs) ==> Distinct(RemoveAll(xs, x))
    ensures Distinct(xs) && x in xs ==> |RemoveAll(xs, x)| == |xs| - 1
  {
    if |xs| > 0 && Distinct(xs) {
      assert Distinct(xs[1..]);
      RemoveAllDistinct(xs[1..], x);
      if xs[0] == x {
        assert x !in xs[1..];
      } else {
        var t := RemoveAll(xs[1..], x);
        assert xs[0] !in xs[1..];
        assert xs[0] !in t;
        forall i, j | 0 <= i < j < |[xs[0]] + t|
          ensures ([xs[0]] + t)[i] != ([xs[0]] + t)[j]
        {
          if i == 0 {
            assert ([xs[0]] + t)[j] == t[j - 1];
          }
        }
      }
    }
  }

  /** In a list without duplicates, removing the entry at position `k`
      leaves exactly the entries before it followed by those after it. */
  lemma {:induction false} RemoveAllAt(xs: seq<SurfaceId>, k: nat)
    requires Distinct(xs) && k < |xs|
    ensures RemoveAll(xs, xs[k]) == xs[..k] + xs[k + 1..]
    decreases k
  {
    var x := xs[k];
    if k == 0 {
      assert x !in xs[1..] by {
        forall j | 0 <= j < |xs[1..]| ensures xs[1..][j] != x {
          assert xs[1..][j] == xs[j + 1];
        }
      }
    } else {
      var tail := xs[1..];
      assert Distinct(tail) by {
        forall i, j | 0 <= i < j < |tail| ensures tail[i] != tail[j] {
          assert tail[i] == xs[i + 1] && tail[j] == xs[j + 1];
        }
      }
      assert tail[k - 1] == x;
      RemoveAllAt(tail, k - 1);
      assert xs[0] != x;
      assert xs[..k] == [xs[0]] + tail[..k - 1];
      assert xs[k + 1..] == tail[k..];
    }
  }

  /** The constructor: a new object (at an address no live object has) with
      no proxy is appended to the list. */
  function Construct(reg: Registry, id: SurfaceId): (r: Registry)
    requires id !in reg.heap
    ensures Listed(reg) ==> Listed(r)
    ensures Valid(reg) ==> Valid(r)
    ensures |r.all| == |reg.all| + 1 && r.all[..|reg.all|] == reg.all && r.all[|reg.all|] == id
    ensures r.heap == reg.heap[id := Create()]
  {
    var r := Registry(reg.all + [id], reg.heap[id := Create()]);
    assert Valid(reg) ==> id !in reg.all;
    r
  }

  /** The destructor: every occurrence of the object leaves the list, then
      `release` runs on it. */
  function Destruct(reg: Registry, id: SurfaceId): (t: Teardown)
    requires id in reg.heap
    ensures Valid(reg) ==> Valid(t.registry)
    ensures id !in t.registry.all && id !in t.registry.heap
    ensures forall y :: y != id ==> (y in t.registry.all <==> y in reg.all)
    ensures Valid(reg) ==> |t.registry.all| == |reg.all| - 1
    ensures forall k :: 0 <= k < |reg.all| && reg.all[k] == id && Distinct(reg.all) ==>
      t.registry.all == reg.all[..k] + reg.all[k + 1..]
    ensures forall y :: y != id && y in reg.heap ==> y in t.registry.heap && t.registry.heap[y] == reg.heap[y]
    ensures t.effects == Release(reg.heap[id]).effects
  {
    var r := Registry(RemoveAll(reg.all, id), reg.heap - {id});
    RemoveKeepsValid(reg, id);
    Teardown(r, Release(reg.heap[id]).effects)
  }

  lemma RemoveKeepsValid(reg: Registry, id: SurfaceId)
    requires id in reg.heap
    ensures Valid(reg) ==> Valid(Registry(RemoveAll(reg.all, id), reg.heap - {id}))
    ensures Valid(reg) ==> |RemoveAll(reg.all, id)| == |reg.all| - 1
    ensures forall k :: 0 <= k < |reg.all| && reg.all[k] == id && Distinct(reg.all) ==>
      RemoveAll(reg.all, id) == reg.all[..k] + reg.all[k + 1..]
  {
    forall k | 0 <= k < |reg.all| && reg.all[k] == id && Distinct(reg.all)
      ensures RemoveAll(reg.all, id) == reg.all[..k] + reg.all[k + 1..]
    {
      RemoveAllAt(reg.all, k);
    }
    if Valid(reg) {
      var all := RemoveAll(reg.all, id);
      var heap := reg.heap - {id};
      RemoveAllDistinct(reg.all, id);
      forall i | 0 <= i < |all|
        ensures all[i] in heap
      {
        assert all[i] in all;
        assert all[i] != id;
        assert all[i] in reg.all;
      }
      forall y | y in heap
        ensures y in all
      {
        assert y in reg.all;
      }
    }
  }

  /** Destroying a freshly constructed surface restores the registry exactly. */
  lemma ConstructDestructRoundTrip(reg: Registry, id: SurfaceId)
    requires Valid(reg) && id !in reg.heap
    ensures Destruct(Construct(reg, id), id) == Teardown(reg, [])
  {
    assert id !in reg.all;
    RemoveAllAppend(reg.all, [id], id);
    assert RemoveAll([id], id) == [];
    assert reg.all + [id] == Construct(reg, id).all;
    assert Construct(reg, id).heap - {id} == reg.heap;
  }

  /** Stores the new state of a live object, as a member function would. */
  function Put(reg: Registry, id: SurfaceId, s: Surface): (r: Registry)
    requires id in reg.heap
    ensures Valid(reg) ==> Valid(r)
    ensures r.all == reg.all && r.heap.Keys == reg.heap.Keys && r.heap[id] == s
  {
    Registry(reg.all, reg.heap[id := s])
  }

  /** Reference definition of `get` from position `i` on: the position of
      the first listed object at or after `i` whose proxy equals `native`, if any. */
  function FindFrom(reg: Registry, native: Option<Native>, i: nat): (r: Option<nat>)
    requires Listed(reg) && i <= |reg.all|
    ensures r.None? <==> forall k :: i <= k < |reg.all| ==> !MatchAt(reg, native, k)
    ensures r.Some? ==> i <= r.value < |reg.all| && MatchAt(reg, native, r.value)
    ensures r.Some? ==> forall j :: i <= j < r.value ==> !MatchAt(reg, native, j)
    decreases |reg.all| - i
  {
    if i == |reg.all| then None
    else if reg.heap[reg.all[i]].native == native then
      assert MatchAt(reg, native, i);
      Some(i)
    else FindFrom(reg, native, i + 1)
  }

  /** `Surface::get`: the first surface in construction order whose proxy
      equals `native` (a null `native` finds the first surface without one),
      or none. */
  method Get(reg: Registry, native: Option<Native>) returns (r: Option<SurfaceId>)
    requires Listed(reg)
    ensures r.None? <==> forall k :: 0 <= k < |reg.all| ==> !MatchAt(reg, native, k)
    ensures r.Some? ==> exists k :: 0 <= k < |reg.all| && reg.all[k] == r.value && FindFrom(reg, native, 0) == Some(k)
    ensures r.Some? ==> r.value in reg.heap && reg.heap[r.value].native == native
  {
    var i := 0;
    while i < |reg.all|
      invariant 0 <= i <= |reg.all|
      invariant FindFrom(reg, native, i) == FindFrom(reg, native, 0)
    {
      if reg.heap[reg.all[i]].native == native {
        return Some(reg.all[i]);
      }
      i := i + 1;
    }
    return None;
  }

  /** `Surface::all`: the live surfaces in construction order. */
  function All(reg: Registry): (r: seq<SurfaceId>)
    requires Valid(reg)
    ensures forall id :: id in r <==> id in reg.heap
    ensures |r| == |reg.all|
  {
    reg.all
  }

  /** A new surface is listed last by `all`, after every older one. */
  lemma AllAfterConstruct(reg: Registry, id: SurfaceId)
    requires Valid(reg) && id !in reg.heap
    ensures All(Construct(reg, id)) == All(reg) + [id]
  {
    var c := Construct(reg, id);
    assert c.all == c.all[..|reg.all|] + [c.all[|reg.all|]];
  }

  /** Destroying the surface at position `k` of `all` drops it and keeps the
      others in construction order. */
  lemma AllAfterDestruct(reg: Registry, k: nat)
    requires Valid(reg) && k < |reg.all|
    ensures All(Destruct(reg, reg.all[k]).registry) == All(reg)[..k] + All(reg)[k + 1..]
  {
  }

  /** Constructing a surface does not change what `get` finds for a non-null
      proxy: the new object has none. */
  lemma {:induction false} FindAfterConstruct(reg: Registry, id: SurfaceId, native: Native, i: nat)
    requires Listed(reg) && id !in reg.heap && i <= |reg.all|
    ensures FindFrom(Construct(reg, id), Some(native), i) == FindFrom(reg, Some(native), i)
    decreases |reg.all| - i
  {
    var c := Construct(reg, id);
    assert Listed(c);
    if i == |reg.all| {
      assert c.heap[c.all[i]] == Create();
      assert FindFrom(c, Some(native), i + 1) == None;
    } else {
      var x := reg.all[i];
      assert c.all[i] == x && x in reg.heap && x != id;
      assert c.heap[x] == reg.heap[x];
      if reg.heap[x].native != Some(native) {
        FindAfterConstruct(reg, id, native, i + 1);
      }
    }
  }

  /** After `setup(native)` on a registered surface, `get(native)` finds that
      surface, provided no earlier surface already holds the same proxy. */
  lemma SetupThenGet(reg: Registry, k: nat, native: Native)
    requires Valid(reg) && k < |reg.all| && !IsValid(reg.heap[reg.all[k]])
    requires forall j :: 0 <= j < k ==> reg.heap[reg.all[j]].native != Some(native)
    ensures FindFrom(Put(reg, reg.all[k], Setup(reg.heap[reg.all[k]], native)), Some(native), 0) == Some(k)
  {
    var id := reg.all[k];
    var r := Put(reg, id, Setup(reg.heap[id], native));
    assert MatchAt(r, Some(native), k);
    forall j | 0 <= j < k
      ensures !MatchAt(r, Some(native), j)
    {
      assert r.all[j] != id;
      assert r.heap[r.all[j]] == reg.heap[reg.all[j]];
    }
  }
}

=== FILE: wrappers.dfy ===
/** Two small sum types used across the model. `Option` is a pointer that
    may be null. `Result` is the outcome of a request: the new value, or the
    kind of error the request was refused with. */
module Wrappers {

  datatype Option<+T> = None | Some(value: T)

  datatype Result<+R, +E> = Success(value: R) | Failure(error: E) {

    /** The new value, or `default` when the request was refused. */
    function GetOr(default: R): R {
      if Success? then value else default
    }
  }
}
